=== FILE: README.md ===
# Offline cache service worker, modelled in Dafny

This project models the caching core of the service worker `sw.js` of the
"PostgreSQL Brasil" progressive web app:

- the fetch handler's **router**, which picks one of four treatments for each
  request: pass-through, network-first, cache-first or stale-while-revalidate;
- the three **strategies**, each reading and writing the Cache Storage;
- the **partition lifecycle**: install-time population of the static
  partition, activation-time deletion of every partition that is not current,
  and the daily sweep of stale versioned partitions.

Cache Storage is modelled as a sequence of named partitions in creation order
(`CacheStorage.Store`). Each partition maps a request key (the request URL) to a
stored response `{status, statusText, body}`. The order matters because
`caches.match` answers from the earliest-created partition that holds the key.
A network fetch is a value `Ok(resp)` or `Fail` handed to each operation.
Install gets the worker's origin (such as `https://example.org`) and a function
from request URL to such a value; it resolves each manifest entry against the
origin, as `new Request` does. Each strategy returns the
reply, the store afterwards and the number of fetches it made. Write-back that
the worker leaves unawaited is taken to complete within the same step.

Modules, one per component:

| file | module | component |
|---|---|---|
| http.dfy | `Http` | responses, `Response.ok`, what the Cache API stores, fetch outcomes |
| url.dfy | `Url` | URL schemes, as the Cache API checks them |
| text.dfy | `Text` | `startsWith`, `endsWith`, `includes` |
| cache_storage.dfy | `CacheStorage` | partitions, `caches.open/match/delete`, `cache.put/match` |
| config.dfy | `Config` | partition names, install manifest, always-fresh prefixes |
| router.dfy | `Router` | the ordered routing rules |
| strategies.dfy | `Strategies` | cache-first, network-first, stale-while-revalidate |
| lifecycle.dfy | `Lifecycle` | install, activate, periodic cleanup |
| service_worker.dfy | `ServiceWorker` | the fetch handler tying router and strategies together |

Some behaviours of the code that a reader may not expect, all kept in the
model:

- The install handler catches the `addAll` rejection and only logs it, so
  install never fails. The static partition has already been created by
  `caches.open` by then. It keeps exactly the entries it had before (none on
  a first install), and `skipWaiting` is not requested. With the manifest as
  written, this is what every install does (see "Findings").
- Network-first returns any response the network delivers, including 404s and
  500s. It consults the store only when the fetch rejects.
- An ok response is stored only if the Cache API accepts it. `cache.put`
  rejects a 206 Partial Content response although `Response.ok` holds. The
  `caches.open` before it is awaited and creates the dynamic partition when
  it is missing; the put is not awaited, so the page still gets the response
  and nothing is stored.
- Stale-while-revalidate can leave the page without a response. This happens
  when the dynamic partition misses and the fetch rejects: the promise then
  settles to `undefined` (`Reply.NoResponse`).
- The router's first rule tests whether the URL string starts with `"http"`,
  not whether the scheme is http or https.

`caches.match` consults partitions in creation order. So network-first's
offline fallback serves a copy held by the static partition, created at
install, in preference to a newer copy it stored in the dynamic partition
(`Strategies.NetworkFirstOfflineShadowed`).

## Model

| member | source | states |
|---|---|---|
| Router.Route | sw.js:72-95 | the decision is pass-through exactly when the URL does not start with "http"; network-first exactly when it does and the path starts with `/api/`, `/contact` or `/form`, whatever its extension; cache-first exactly when neither holds and the destination is style/script/image or the path ends in `.css`/`.js`/`.json`; stale-while-revalidate otherwise |
| Router.DecideAppend | sw.js:77-95 | first-match-wins: the later rules of the table are consulted only when no earlier rule fires |
| Strategies.CacheFirst | sw.js:99-122 | always a response; a key held by any partition is answered from the earliest such partition with no fetch and no store change; on a miss one fetch is made and its response (ok or not) returned; an ok, non-206 response is stored in the dynamic partition, an ok 206 only has the dynamic partition opened (created if missing), any other leaves the store alone; a rejected fetch yields the 503 "Conteúdo não disponível offline" and leaves the store alone; only the dynamic entry for the key can change, the partitions keep their creation order (a missing dynamic one is created last), and `caches.match` answers every other key as before |
| Strategies.NetworkFirst | sw.js:125-149 | always exactly one fetch and a response; a delivered response is returned even when not ok; an ok, non-206 one is stored in the dynamic partition, an ok 206 only has the dynamic partition opened (created if missing); on rejection the store is unchanged and the answer is the earliest partition's entry, or the 503 "Conteúdo não disponível"; the partitions keep their creation order (a missing dynamic one is created last) and `caches.match` answers every other key as before |
| Strategies.StaleWhileRevalidate | sw.js:152-169 | always one fetch; a dynamic-partition entry is answered even if other partitions also hold the key; otherwise the network's response, ok or not; no response exactly when the dynamic partition misses and the fetch rejects; the dynamic partition exists afterwards and gains the fetched response exactly when it is ok and not 206 (the status `cache.put` rejects); no other partition changes; the partitions keep their creation order (a missing dynamic one is created last) and `caches.match` answers every other key as before |
| Strategies.WriteBack | sw.js:109-112 | an ok response other than 206 overwrites the key in the dynamic partition (created last if missing) and changes nothing else: no other partition, no partition order, no `caches.match` answer for another key; an ok 206, which `cache.put` rejects, leaves the store as `caches.open` of the dynamic partition makes it (created empty if missing); a response that is not ok changes nothing |
| Strategies.CacheFirstRepeats | sw.js:101-112 | once cache-first has served from the store or stored an ok response, a second request for the key gets the same response with zero fetches and an unchanged store |
| Strategies.NetworkFirstOfflineAfterOnline | sw.js:127-142 | an ok response stored while online is what the offline fallback serves next, when no other partition holds the key |
| Strategies.NetworkFirstOfflineShadowed | sw.js:130-142 | when the static partition, created before the dynamic one, also holds the key, the offline fallback serves the static copy, not the fresh one network-first stored |
| Strategies.RevalidatedForNextRequest | sw.js:153-168 | stale-while-revalidate answers with the stored entry and, after an ok fetch, the next request is answered with the fresh response |
| Strategies.RevalidationKeepsOnFailure | sw.js:157-165 | a rejected fetch, a response that is not ok, or a 206 response never replaces the stored entry |
| Strategies.PartialContentNotStored | sw.js:157-161 | a 206 response with nothing stored is passed to the page but not stored, so the next request is answered by the network again, or not at all when offline |
| Strategies.PartialContentOpensDynamic | sw.js:106-112 | on an empty store, cache-first and network-first pass an ok 206 on to the page and leave exactly one partition: the dynamic one, created by `caches.open` and still empty |
| CacheStorage.MatchAll | sw.js:101 | `caches.match`: none exactly when no partition holds the key; otherwise the entry of the first partition in creation order that holds it |
| CacheStorage.MatchInAfterPut | sw.js:154-159 | `cache.match` on a partition returns what `cache.put` last stored there under the key; a put under another key, or into another partition, leaves its answer unchanged |
| CacheStorage.MatchInAfterOpen | sw.js:153-154 | `caches.open` changes no answer of `cache.match`, on any partition |
| CacheStorage.Open | sw.js:110 | `caches.open`: the named partition exists afterwards with its old entries (none if new), every other partition is unchanged, a new one is appended last, and every `caches.match` answer is unchanged |
| CacheStorage.Put | sw.js:111 | `cache.put`: the partition's entry for the key becomes the response, everything else is unchanged, names stay distinct; the name order is that of `caches.open`, and `caches.match` answers every other key as before |
| CacheStorage.Delete | sw.js:55 | `caches.delete`: the named partition is gone, every other partition is unchanged |
| CacheStorage.MatchAllAfterPut | sw.js:101-111 | a response put into a partition is what `caches.match` returns afterwards, provided no partition of another name holds the key |
| CacheStorage.WithoutSpec | sw.js:50-58 | removing a set of names leaves exactly the partitions with other names, their contents unchanged and their names distinct |
| Lifecycle.AddAll | sw.js:31 | `addAll` on resolved request URLs succeeds exactly when every URL is absolute http(s), no URL repeats and every fetch produced an ok, non-206 response; it then stores every fetched response under its URL, keeping the other entries and partitions |
| Lifecycle.PutAll | sw.js:31 | the puts of a successful `addAll`: the partition holds its old entries plus every fetched response, no other partition changes, names stay distinct |
| Lifecycle.InstallWith | sw.js:24-40 | for any origin and manifest: skip-waiting is requested exactly when the resolved manifest URLs are all http(s), distinct and fetched ok and non-206, an error is logged exactly otherwise; on success the static partition is its old entries plus every response under its resolved URL; on failure it exists but holds exactly its old entries; no other partition changes |
| Lifecycle.IconRefused | sw.js:13 | the manifest's sixth entry is an absolute URL with scheme `data`, which resolving leaves as it is, so for every origin not every request URL of the manifest is http(s) |
| Lifecycle.Install | sw.js:7-40 | with the manifest as written, for every origin and network outcome: the error is logged, skip-waiting is never requested, the static partition exists and holds exactly its old entries, no other partition changes |
| Lifecycle.IntendedInstall | sw.js:7-40 | with the manifest's five site paths only: skip-waiting exactly when the origin is http(s) and every path's full URL fetched an ok, non-206 response, and then the static partition holds its old entries plus those responses under the full URLs; otherwise it holds exactly its old entries and the error is logged |
| Lifecycle.SitePathRequests | sw.js:8-12 | the five site paths resolve to the origin followed by the path: five distinct URLs, all http(s) exactly when the origin is |
| Url.ResolvePath | sw.js:8-12 | a manifest path beginning with "/" has no scheme and resolves to the origin followed by the path, which is http(s) exactly when the origin is |
| Lifecycle.InstallAllOrNothing | sw.js:27-39 | for any origin, manifest and URL in it: after a successful install the resolved URL is stored with its fetched response; after a failed one it is present only if it was before |
| Lifecycle.ManifestDistinct | sw.js:7-14 | the manifest lists six distinct URLs, and its first five are the site paths |
| Lifecycle.InstallFromScratch | sw.js:7-35 | a first install of the five site paths from an http(s) origin, with every fetch ok and not 206, succeeds and leaves a static partition whose keys are exactly the five full URLs |
| Lifecycle.FreshIntendedInstall | sw.js:28-35 | a successful intended install into an empty store leaves exactly one partition: the static one, holding the fetched responses of the five full URLs |
| Lifecycle.DeleteEachIsWithout | sw.js:241-247 | deleting the selected names one after another leaves exactly the partitions whose names were not selected, in their order |
| Lifecycle.DeleteEach | sw.js:51-57 | deleting each selected name: a selected name is gone afterwards, every other partition is found as before |
| Lifecycle.Activate | sw.js:44-65 | a name is found afterwards only if it is the current static or dynamic name (the test at sw.js:53), and a current name is found exactly as before, with unchanged contents; exactly the partitions of those names remain; clients are claimed |
| Lifecycle.PeriodicCleanup | sw.js:240-249 | afterwards exactly the partitions whose name contains "-v" and is not current (the test at sw.js:243) are gone; all others are unchanged |
| Lifecycle.ActivateIdempotent | sw.js:47-59 | activating twice equals activating once |
| Lifecycle.SweepWithinActivation | sw.js:243 | every name the sweep deletes, activation deletes too; neither deletes a current name; names without "-v" survive the sweep |
| Lifecycle.SweepThenActivate | sw.js:240-248 | sweeping before activation does not change what activation leaves, and whatever activation leaves survives the sweep |
| Lifecycle.LegacyCacheRemoved | sw.js:2 | the earlier release's `postgresql-brasil-v1.0.0` partition is removed by activation and by the sweep |
| Lifecycle.ActivationScenario | sw.js:47-59 | the current pair interleaved with three superseded partitions activates to exactly the current pair, in order |
| ServiceWorker.HandleFetch | sw.js:68-96 | not intercepted exactly for non-"http" URLs, and then nothing changes and nothing is fetched; at most one fetch; only the dynamic entry for the request's URL can change, no entry is removed, the partitions keep their creation order (a missing dynamic one is created last), and `caches.match` answers every other URL as before |
| ServiceWorker.ScenarioContactOffline | sw.js:78-80 | `/api/contact` offline with nothing cached is answered 503 with the fixed body and the store untouched |
| ServiceWorker.ScenarioStyleFromStatic | sw.js:84-104 | `/style.css` held by the static partition, when that partition was created before any other, is served from it with zero fetches |
| ServiceWorker.ScenarioNavigationRevalidates | sw.js:94-168 | a navigation to `/` with a stored copy answers with that copy; the next one gets the freshly fetched response |
| ServiceWorker.NavigationIsRevalidated | sw.js:84-95 | a navigation to `/` with destination `document` is routed to stale-while-revalidate |
| ServiceWorker.NonHttpUntouched | sw.js:73-75 | a non-"http" request is not intercepted: no fetch, store unchanged |
| ServiceWorker.ApiJsonIsNetworkFirst | sw.js:78-89 | `/api/data.json` goes to network-first although it ends in `.json` |
| ServiceWorker.InstalledStyleServedFromCache | sw.js:28-104 | after the intended install from an http(s) origin into an empty store, a request for the origin's `/style.css` is answered with the installed response from the static partition, with no fetch and whatever the network does |

## Left out

- The `push`, `notificationclick` and `sync` handlers (sw.js:172-226): they are platform notification and window calls plus a no-op sync, with no cache logic.
- The `error` and `unhandledrejection` handlers and all console logging (sw.js:229-237): they only log or suppress errors. The install error is kept only as the `errorLogged` flag.
- Concurrency and timing. The unawaited `cache.put` calls and the background fetch of stale-while-revalidate complete within the same step, and interleavings of concurrent requests are not modelled. The 24-hour `setInterval` is `PeriodicCleanup`, called directly.
- URL parsing and `Request`/`Response` objects. Only the scheme is read from a URL (`Url`), and `Url.Resolve` resolves a manifest entry for a worker served from the root of its origin: an absolute URL stays as it is, a path is appended to the origin. Scheme-relative references (`//host/path`), dot segments, and percent-encoding or case normalisation are not modelled; the manifest has none. The pathname and destination of a fetched request are given with its URL, and the cache key is the URL string. Headers, `Vary` and response cloning are not modelled.
- The HTTP method. The Cache API rejects `put` for non-GET requests and `match` finds none; the model treats every request as GET.
- Failures of the Cache Storage itself (`caches.open`, `match` and `put` rejecting for quota or I/O reasons). Only network failures and the request rules of `put` and `addAll` that the worker can meet are modelled: the http(s) scheme and the 206 status.
- `skipWaiting()` and `clients.claim()` appear only as the flags `Installed.skipWaiting` and `Activated.claimsClients`.
- The atomicity of `cache.addAll` is the browser's guarantee and is built into `Lifecycle.AddAll`, not proved. So are its rules that each of these rejects the whole call: a URL whose scheme is not http or https, a rejected fetch, a response that is not ok, a 206 response, and two requests for the same URL (the batch's InvalidStateError). These rules come from the Cache `addAll` and `put` algorithms and the Batch Cache Operations algorithm of the W3C Service Workers specification.
- Strategies.WriteBack: does not apply the http(s)-scheme rule of `cache.put` to the key. Browsers dispatch fetch events only for http(s) requests, so every key that reaches a strategy passes it.

## Findings

| source | as written | input that shows it | evidently intended | confidence | as-written member | corrected member |
|---|---|---|---|---|---|---|
| sw.js:13 | The install manifest lists the app icon as a `data:` URL, and sw.js:31 hands the whole manifest to `cache.addAll`. `addAll` rejects any request whose scheme is not http or https, so every install only logs the error: `skipWaiting` is never requested and the static partition stays as it was. | Any origin, any store and any network, including one that answers every site path with 200 (`Lifecycle.IconRefused` shows the icon keeps its `data` scheme when resolved). | The icon left out of the manifest, so that install caches the five site paths; `Lifecycle.InstallFromScratch` proves that a first install with every path answering ok then stores exactly their five full URLs, and `ServiceWorker.InstalledStyleServedFromCache` that the fetch handler then serves the stylesheet from it. | medium; not executed | Lifecycle.Install | Lifecycle.IntendedInstall |

=== FILE: cache_storage.dfy ===
/** The Cache Storage of one origin: named partitions of (URL key -> response)
    entries. Partitions are kept in creation order, which is the order in which
    `caches.keys()` lists them and `caches.match` searches them. */
module CacheStorage {
  import opened Http

  datatype Option<T> = None | Some(value: T)

  type Entries = map<string, Resp>

  datatype Partition = Partition(name: string, entries: Entries)

  type Store = seq<Partition>

  /** `caches.keys()` */
  function Names(s: Store): seq<string> {
    seq(|s|, i requires 0 <= i < |s| => s[i].name)
  }

  /** The browser never holds two partitions of the same name. */
  predicate DistinctNames(s: Store) {
    forall i, j :: 0 <= i < j < |s| ==> s[i].name != s[j].name
  }

  /** Position of the first partition named `n`, or `|s|` when there is none. */
  function FirstNamed(s: Store, n: string): (i: nat)
    ensures i <= |s|
    ensures forall j :: 0 <= j < i ==> s[j].name != n
    ensures i < |s| ==> s[i].name == n
  {
    if |s| == 0 then 0
    else if s[0].name == n then 0
    else 1 + FirstNamed(s[1..], n)
  }

  lemma FirstNamedUnique(s: Store, n: string, i: nat)
    requires i <= |s|
    requires forall j :: 0 <= j < i ==> s[j].name != n
    requires i < |s| ==> s[i].name == n
    ensures FirstNamed(s, n) == i
  {
  }

  /** `caches.open(n)` followed by reading its entries, without creating it. */
  function Find(s: Store, n: string): (r: Option<Entries>)
    ensures r.None? <==> forall i :: 0 <= i < |s| ==> s[i].name != n
    ensures r.Some? ==> exists i :: 0 <= i < |s| && s[i].name == n && s[i].entries == r.value
  {
    var i := FirstNamed(s, n);
    if i < |s| then Some(s[i].entries) else None
  }

  /** The entries of partition `n`, or no entries when it does not exist. */
  function EntriesOf(s: Store, n: string): Entries {
    match Find(s, n)
    case Some(e) => e
    case None => map[]
  }

  /** Position of the first partition holding `key`, or `|s|` when none does. */
  function FirstHolding(s: Store, key: string): (i: nat)
    ensures i <= |s|
    ensures forall j :: 0 <= j < i ==> key !in s[j].entries
    ensures i < |s| ==> key in s[i].entries
  {
    if |s| == 0 then 0
    else if key in s[0].entries then 0
    else 1 + FirstHolding(s[1..], key)
  }

  lemma FirstHoldingUnique(s: Store, key: string, i: nat)
    requires i <= |s|
    requires forall j :: 0 <= j < i ==> key !in s[j].entries
    requires i < |s| ==> key in s[i].entries
    ensures FirstHolding(s, key) == i
  {
  }

  /** `caches.match(key)`: the entry of the earliest-created partition that
      holds `key`. */
  function MatchAll(s: Store, key: string): (r: Option<Resp>)
    ensures r.None? <==> forall i :: 0 <= i < |s| ==> key !in s[i].entries
    ensures r.Some? ==> exists i :: 0 <= i < |s| && key in s[i].entries && s[i].entries[key] == r.value
                                    && forall j :: 0 <= j < i ==> key !in s[j].entries
  {
    var i := FirstHolding(s, key);
    if i < |s| then Some(s[i].entries[key]) else None
  }

  /** `cache.match(key)` on the partition named `n`. */
  function MatchIn(s: Store, n: string, key: string): Option<Resp> {
    var e := EntriesOf(s, n);
    if key in e then Some(e[key]) else None
  }

  /** Appending a partition leaves every earlier lookup as it was. */
  lemma FindAppend(s: Store, p: Partition, m: string)
    ensures Find(s + [p], m) == if Find(s, m).Some? then Find(s, m) else if p.name == m then Some(p.entries) else None
  {
    var t := s + [p];
    var i := FirstNamed(s, m);
    if i < |s| {
      FirstNamedUnique(t, m, i);
    } else if p.name == m {
      FirstNamedUnique(t, m, |s|);
    } else {
      FirstNamedUnique(t, m, |t|);
    }
  }

  /** Appending an empty partition changes no answer of `caches.match`. */
  lemma MatchAllAppendEmpty(s: Store, n: string, k: string)
    ensures MatchAll(s + [Partition(n, map[])], k) == MatchAll(s, k)
  {
    var t := s + [Partition(n, map[])];
    var i := FirstHolding(s, k);
    if i < |s| {
      FirstHoldingUnique(t, k, i);
    } else {
      FirstHoldingUnique(t, k, |t|);
    }
  }

  /** `caches.open(n)`: creates an empty partition at the end when none is named `n`. */
  function Open(s: Store, n: string): (r: Store)
    ensures Find(r, n) == Some(EntriesOf(s, n))
    ensures forall m :: m != n ==> Find(r, m) == Find(s, m)
    ensures Find(s, n).Some? ==> r == s
    ensures Find(s, n).None? ==> Names(r) == Names(s) + [n]
    ensures forall k :: MatchAll(r, k) == MatchAll(s, k)
    ensures DistinctNames(s) ==> DistinctNames(r)
  {
    if Find(s, n).Some? then s
    else
      var p := Partition(n, map[]);
      FindAppendAll(s, p);
      forall k ensures MatchAll(s + [p], k) == MatchAll(s, k) {
        MatchAllAppendEmpty(s, n, k);
      }
      s + [p]
  }

  lemma FindAppendAll(s: Store, p: Partition)
    ensures forall m {:trigger Find(s + [p], m)} :: Find(s + [p], m) == if Find(s, m).Some? then Find(s, m) else if p.name == m then Some(p.entries) else None
  {
    forall m {
      FindAppend(s, p, m);
    }
  }

  /** Writes `key := resp` into every partition named `n` (there is at most one). */
  function Update(s: Store, n: string, key: string, resp: Resp): (r: Store)
    ensures |r| == |s|
    ensures forall i :: 0 <= i < |s| ==> r[i].name == s[i].name
    ensures forall i :: 0 <= i < |s| && s[i].name != n ==> r[i] == s[i]
    ensures forall i :: 0 <= i < |s| && s[i].name == n ==> r[i].entries == s[i].entries[key := resp]
  {
    seq(|s|, i requires 0 <= i < |s| =>
      if s[i].name == n then Partition(n, s[i].entries[key := resp]) else s[i])
  }

  lemma FindUpdate(s: Store, n: string, key: string, resp: Resp, m: string)
    ensures Find(Update(s, n, key, resp), m) ==
            match Find(s, m)
            case Some(e) => Some(if m == n then e[key := resp] else e)
            case None => None
  {
    var r := Update(s, n, key, resp);
    FirstNamedUnique(r, m, FirstNamed(s, m));
  }

  /** Writing under `key` changes no answer of `caches.match` for another key. */
  lemma MatchAllUpdateOther(s: Store, n: string, key: string, resp: Resp, k: string)
    requires k != key
    ensures MatchAll(Update(s, n, key, resp), k) == MatchAll(s, k)
  {
    var r := Update(s, n, key, resp);
    forall j | 0 <= j < |s|
      ensures k in r[j].entries <==> k in s[j].entries
      ensures k in s[j].entries ==> r[j].entries[k] == s[j].entries[k]
    {
    }
    FirstHoldingUnique(r, k, FirstHolding(s, k));
  }

  /** `cache.put(key, resp)` on `caches.open(n)`: the partition is created if
      missing and its entry for `key` is overwritten. */
  function Put(s: Store, n: string, key: string, resp: Resp): (r: Store)
    ensures Find(r, n) == Some(EntriesOf(s, n)[key := resp])
    ensures forall m :: m != n ==> Find(r, m) == Find(s, m)
    ensures Names(r) == Names(Open(s, n))
    ensures forall k :: k != key ==> MatchAll(r, k) == MatchAll(s, k)
    ensures DistinctNames(s) ==> DistinctNames(r)
  {
    var o := Open(s, n);
    var r := Update(o, n, key, resp);
    FindUpdate(o, n, key, resp, n);
    forall m | m != n
      ensures Find(r, m) == Find(s, m)
    {
      FindUpdate(o, n, key, resp, m);
    }
    forall k | k != key
      ensures MatchAll(r, k) == MatchAll(s, k)
    {
      MatchAllUpdateOther(o, n, key, resp, k);
    }
    r
  }

  lemma FindCons(p: Partition, t: Store, m: string)
    ensures Find([p] + t, m) == if p.name == m then Some(p.entries) else Find(t, m)
  {
    var s := [p] + t;
    if p.name == m {
      FirstNamedUnique(s, m, 0);
    } else {
      FirstNamedUnique(s, m, 1 + FirstNamed(t, m));
    }
  }

  /** Membership in `caches.keys()` is membership of some partition's name. */
  lemma NamesMembership(s: Store)
    ensures forall p :: p in s ==> p.name in Names(s)
    ensures forall n :: n in Names(s) ==> exists p :: p in s && p.name == n
  {
    forall p | p in s
      ensures p.name in Names(s)
    {
      var i :| 0 <= i < |s| && s[i] == p;
      assert Names(s)[i] == p.name;
    }
    forall n | n in Names(s)
      ensures exists p :: p in s && p.name == n
    {
      var i :| 0 <= i < |Names(s)| && Names(s)[i] == n;
      assert s[i] in s;
    }
  }

  /** The partitions of `s` whose names are not in `gone`, in their original order. */
  function Without(s: Store, gone: set<string>): Store {
    if |s| == 0 then []
    else if s[0].name in gone then Without(s[1..], gone)
    else [s[0]] + Without(s[1..], gone)
  }

  /** Filtering by name keeps exactly the partitions with other names. */
  lemma {:induction false} WithoutMembers(s: Store, gone: set<string>)
    ensures forall p :: p in Without(s, gone) <==> p in s && p.name !in gone
    decreases |s|
  {
    if |s| != 0 {
      WithoutMembers(s[1..], gone);
      assert s == [s[0]] + s[1..];
    }
  }

  /** Filtering by name removes the named partitions and leaves every other
      partition's contents as they were. */
  lemma {:induction false} WithoutFind(s: Store, gone: set<string>, m: string)
    ensures Find(Without(s, gone), m) == if m in gone then None else Find(s, m)
    decreases |s|
  {
    if |s| != 0 {
      var t := Without(s[1..], gone);
      WithoutFind(s[1..], gone, m);
      assert s == [s[0]] + s[1..];
      FindCons(s[0], s[1..], m);
      if s[0].name !in gone {
        FindCons(s[0], t, m);
      }
    }
  }

  /** Filtering by name removes exactly the named partitions: every other
      partition keeps its contents, and no two partitions come to share a name. */
  lemma WithoutSpec(s: Store, gone: set<string>)
    ensures forall m :: Find(Without(s, gone), m) == if m in gone then None else Find(s, m)
    ensures forall p :: p in Without(s, gone) <==> p in s && p.name !in gone
    ensures DistinctNames(s) ==> DistinctNames(Without(s, gone))
  {
    forall m ensures Find(Without(s, gone), m) == if m in gone then None else Find(s, m) {
      WithoutFind(s, gone, m);
    }
    WithoutMembers(s, gone);
    WithoutDistinct(s, gone);
  }

  lemma {:induction false} WithoutDistinct(s: Store, gone: set<string>)
    ensures DistinctNames(s) ==> DistinctNames(Without(s, gone))
    decreases |s|
  {
    if |s| != 0 && DistinctNames(s) {
      var t := Without(s[1..], gone);
      WithoutDistinct(s[1..], gone);
      WithoutMembers(s[1..], gone);
      if s[0].name !in gone {
        forall p | p in t ensures p.name != s[0].name {
          var i :| 0 <= i < |s[1..]| && s[1..][i] == p;
          assert s[i + 1] == p;
        }
      }
    }
  }

  lemma WithoutCons(p: Partition, t: Store, gone: set<string>)
    ensures Without([p] + t, gone) == if p.name in gone then Without(t, gone) else [p] + Without(t, gone)
  {
  }

  /** `caches.delete(n)`: drops the partition named `n`; the others keep their
      contents and order. */
  function Delete(s: Store, n: string): (r: Store)
    ensures Find(r, n).None?
    ensures forall m :: m != n ==> Find(r, m) == Find(s, m)
    ensures DistinctNames(s) ==> DistinctNames(r)
  {
    WithoutSpec(s, {n});
    Without(s, {n})
  }

  lemma {:induction false} WithoutTwice(s: Store, a: set<string>, b: set<string>)
    ensures Without(Without(s, a), b) == Without(s, a + b)
    decreases |s|
  {
    if |s| != 0 {
      WithoutTwice(s[1..], a, b);
      if s[0].name !in a {
        var t := Without(s[1..], a);
        assert ([s[0]] + t)[1..] == t;
      }
    }
  }

  /** Only the names actually present matter to `Without`. */
  lemma {:induction false} WithoutAgrees(s: Store, a: set<string>, b: set<string>)
    requires forall p :: p in s ==> (p.name in a <==> p.name in b)
    ensures Without(s, a) == Without(s, b)
    decreases |s|
  {
    if |s| != 0 {
      assert s[0] in s;
      forall p | p in s[1..] ensures p in s { }
      WithoutAgrees(s[1..], a, b);
    }
  }

  lemma {:induction false} WithoutNothing(s: Store, gone: set<string>)
    requires forall p :: p in s ==> p.name !in gone
    ensures Without(s, gone) == s
    decreases |s|
  {
    if |s| != 0 {
      assert s[0] in s;
      forall p | p in s[1..] ensures p in s { }
      WithoutNothing(s[1..], gone);
      assert s == [s[0]] + s[1..];
    }
  }

  /** After `key := resp` is put into partition `n`, `caches.match(key)` finds
      `resp` unless an earlier-created partition of another name holds `key`. */
  lemma MatchAllAfterPut(s: Store, n: string, key: string, resp: Resp)
    requires forall i :: 0 <= i < |s| && s[i].name != n ==> key !in s[i].entries
    ensures MatchAll(Put(s, n, key, resp), key) == Some(resp)
  {
    var o := Open(s, n);
    var r := Put(s, n, key, resp);
    assert r == Update(o, n, key, resp);
    assert forall i :: 0 <= i < |o| && o[i].name != n ==> key !in o[i].entries;
    var k := FirstNamed(o, n);
    assert k < |o| by {
      assert Find(o, n).Some?;
    }
    assert key in r[k].entries && r[k].entries[key] == resp;
    FirstHoldingUnique(r, key, k);
  }

  /** `cache.match` on a partition reads back what `cache.put` last wrote
      there; a put under another key or into another partition leaves its
      answer as it was. */
  lemma MatchInAfterPut(s: Store, n: string, key: string, resp: Resp, m: string, k: string)
    ensures MatchIn(Put(s, n, key, resp), n, key) == Some(resp)
    ensures k != key ==> MatchIn(Put(s, n, key, resp), n, k) == MatchIn(s, n, k)
    ensures m != n ==> MatchIn(Put(s, n, key, resp), m, k) == MatchIn(s, m, k)
  {
    var r := Put(s, n, key, resp);
    assert EntriesOf(r, n) == EntriesOf(s, n)[key := resp];
    if m != n {
      assert Find(r, m) == Find(s, m);
    }
  }

  /** `caches.open` changes no answer of `cache.match`. */
  lemma MatchInAfterOpen(s: Store, n: string, m: string, k: string)
    ensures MatchIn(Open(s, n), m, k) == MatchIn(s, m, k)
  {
    if m != n {
      assert Find(Open(s, n), m) == Find(s, m);
    }
  }

  lemma NamedFound(s: Store, i: nat)
    requires i < |s|
    ensures Find(s, s[i].name).Some?
  {
  }

  /** A store in which only the name `n` is found consists of that one
      partition. */
  lemma OnlyPartition(s: Store, n: string, e: Entries)
    requires DistinctNames(s)
    requires Find(s, n) == Some(e)
    requires forall m :: m != n ==> Find(s, m).None?
    ensures s == [Partition(n, e)]
  {
    forall i | 0 <= i < |s|
      ensures s[i].name == n
    {
      NamedFound(s, i);
    }
    assert |s| == 1 by {
      assert |s| > 0;
      var last := |s| - 1;
      assert s[0].name == n && s[last].name == n;
    }
    FirstNamedUnique(s, n, 0);
  }
}

=== FILE: config.dfy ===
/** The worker's fixed configuration: partition names, the install manifest and
    the always-fresh path prefixes. */
module Config {

  /** A partition name left over from an earlier release; no handler opens it. */
  const LegacyCacheName: string := "postgresql-brasil-v1.0.0"

  const StaticCacheName: string := "postgresql-static-v1.0.0"

  const DynamicCacheName: string := "postgresql-dynamic-v1.0.0"

  /** The app icon as an inline SVG `data:` URL, the manifest's one entry that
      needs no network. */
  const InlineIcon: string := "data:" + IconData

  /** The icon's data part: media type, then the SVG markup. */
  const IconData: string := "image/svg+xml,<svg xmlns=\"http://www.w3.org/2000/svg\" viewBox=\"0 0 24 24\" fill=\"%23336791\"><path d=\"M23.111 5.441c-.248-2.135-1.735-3.928-3.797-4.584C17.678.375 15.99.057 14.269.057c-1.721 0-3.409.318-5.045.8C7.162 1.513 5.675 3.306 5.427 5.441c-.248 2.135.46 4.254 1.806 5.736.598.659 1.306 1.181 2.089 1.537v7.229c0 .829.672 1.5 1.5 1.5h4.356c.828 0 1.5-.671 1.5-1.5v-7.229c.783-.356 1.491-.878 2.089-1.537 1.346-1.482 2.054-3.601 1.806-5.736z\"/></svg>"

  /** The install manifest: five site paths and one inline SVG icon. */
  const StaticAssets: seq<string> := [
    "/",
    "/index.html",
    "/style.css",
    "/script.js",
    "/manifest.json",
    InlineIcon
  ]

  /** The manifest's five site paths, without the inline icon: what install
      can actually store, since the Cache API refuses a `data:` URL. */
  const SitePaths: seq<string> := [
    "/",
    "/index.html",
    "/style.css",
    "/script.js",
    "/manifest.json"
  ]

  /** Path prefixes that are always fetched from the network first. */
  const NetworkFirstPrefixes: seq<string> := ["/api/", "/contact", "/form"]

  /** `request.destination` values served cache-first. */
  const StaticDestinations: seq<string> := ["style", "script", "image"]

  /** Path extensions served cache-first. */
  const StaticExtensions: seq<string> := [".css", ".js", ".json"]
}

=== FILE: http.dfy ===
/** Responses and network outcomes, as the service worker sees them. */
module Http {

  /** A stored or fetched response, reduced to what the worker inspects or produces. */
  datatype Resp = Resp(status: int, statusText: string, body: string)

  /** `Response.ok`: the status lies in the 2xx range. */
  predicate IsOk(r: Resp) {
    200 <= r.status <= 299
  }

  /** Partial Content: `Response.ok` holds, yet the Cache API's `put` and
      `addAll` reject such a response with a TypeError. */
  const PartialContent: int := 206

  /** An ok response that the Cache API stores: ok and not partial content. */
  predicate Cacheable(r: Resp) {
    IsOk(r) && r.status != PartialContent
  }

  /** The result of one `fetch`: a response (of any status) or a rejection
      (offline, DNS failure, aborted connection). */
  datatype Net = Ok(resp: Resp) | Fail

  /** The fetch produced a response that the Cache API stores. */
  predicate FetchedCacheable(n: Net) {
    n.Ok? && Cacheable(n.resp)
  }
}

=== FILE: lifecycle.dfy ===
/** Partition lifecycle: populating the static partition at install, deleting
    superseded partitions at activation, and the daily sweep of stale ones. */
module Lifecycle {
  import opened Http
  import opened Text
  import opened CacheStorage
  import opened Config
  import opened Url

  // ----- install -----

  /** Outcome of the install handler: the store, whether `skipWaiting()` was
      requested, and whether an installation error was caught and logged.
      The handler's promise always settles successfully. */
  datatype Installed = Installed(store: Store, skipWaiting: bool, errorLogged: bool)

  /** Every URL's fetch produced a response that the Cache API stores. */
  predicate AllFetchedCacheable(urls: seq<string>, fetch: string -> Net) {
    forall u :: u in urls ==> FetchedCacheable(fetch(u))
  }

  /** Every URL is one the Cache API accepts as a request URL. */
  predicate AllHttpUrls(urls: seq<string>) {
    forall u :: u in urls ==> IsHttpUrl(u)
  }

  /** No request URL occurs twice. The Cache API's batch of puts refuses a put
      that matches an earlier one of the same batch (InvalidStateError). */
  predicate NoRepeats(urls: seq<string>) {
    forall i, j :: 0 <= i < j < |urls| ==> urls[i] != urls[j]
  }

  /** The entries that a successful `addAll(urls)` writes. */
  function Fetched(urls: seq<string>, fetch: string -> Net): map<string, Resp>
    requires AllFetchedCacheable(urls, fetch)
  {
    map u | u in urls :: fetch(u).resp
  }

  lemma FetchedCons(e: map<string, Resp>, urls: seq<string>, fetch: string -> Net)
    requires |urls| > 0 && AllFetchedCacheable(urls, fetch)
    ensures AllFetchedCacheable(urls[1..], fetch)
    ensures e[urls[0] := fetch(urls[0]).resp] + Fetched(urls[1..], fetch) == e + Fetched(urls, fetch)
  {
  }

  /** The puts of a successful `addAll`, one URL after another. */
  function PutAll(s: Store, n: string, urls: seq<string>, fetch: string -> Net): (r: Store)
    requires AllFetchedCacheable(urls, fetch)
    ensures Find(r, n) == Some(EntriesOf(s, n) + Fetched(urls, fetch))
    ensures forall m :: m != n ==> Find(r, m) == Find(s, m)
    ensures DistinctNames(s) ==> DistinctNames(r)
    decreases |urls|
  {
    if |urls| == 0 then
      assert Fetched(urls, fetch) == map[];
      assert EntriesOf(s, n) + Fetched(urls, fetch) == EntriesOf(s, n);
      Open(s, n)
    else
      var u := urls[0];
      var s1 := Put(s, n, u, fetch(u).resp);
      FetchedCons(EntriesOf(s, n), urls, fetch);
      PutAll(s1, n, urls[1..], fetch)
  }

  /** `cache.addAll(urls)` on the open partition `n`, for request URLs
      already resolved. It rejects at once when some URL is not http(s); after
      fetching, when some fetch rejects or yields a response that is not ok or
      is partial content; and when two requests are the same. Only when every
      request succeeds are all responses stored; a rejection stores nothing. */
  function AddAll(s: Store, n: string, urls: seq<string>, fetch: string -> Net): (r: Option<Store>)
    ensures r.Some? <==> AllHttpUrls(urls) && NoRepeats(urls) && AllFetchedCacheable(urls, fetch)
    ensures r.Some? ==> Find(r.value, n) == Some(EntriesOf(s, n) + Fetched(urls, fetch))
    ensures r.Some? ==> forall m :: m != n ==> Find(r.value, m) == Find(s, m)
    ensures r.Some? && DistinctNames(s) ==> DistinctNames(r.value)
  {
    if !AllHttpUrls(urls) then None
    else if !AllFetchedCacheable(urls, fetch) then None
    else if !NoRepeats(urls) then None
    else Some(PutAll(s, n, urls, fetch))
  }

  /** The request URLs of a manifest, each entry resolved against the
      worker's origin. */
  function Requests(origin: string, manifest: seq<string>): (r: seq<string>)
    ensures |r| == |manifest|
    ensures forall i :: 0 <= i < |manifest| ==> r[i] == Resolve(origin, manifest[i])
  {
    seq(|manifest|, i requires 0 <= i < |manifest| => Resolve(origin, manifest[i]))
  }

  /** The install handler for a manifest, in a worker served from `origin`:
      open the static partition, `addAll` the manifest, then request
      `skipWaiting()`; a rejection is caught and logged. */
  function InstallWith(s: Store, origin: string, manifest: seq<string>, fetch: string -> Net): (o: Installed)
    ensures var reqs := Requests(origin, manifest);
            o.skipWaiting <==> AllHttpUrls(reqs) && NoRepeats(reqs) && AllFetchedCacheable(reqs, fetch)
    ensures o.errorLogged <==> !o.skipWaiting
    ensures o.skipWaiting ==>
              Find(o.store, StaticCacheName) ==
              Some(EntriesOf(s, StaticCacheName) + Fetched(Requests(origin, manifest), fetch))
    ensures !o.skipWaiting ==> Find(o.store, StaticCacheName) == Some(EntriesOf(s, StaticCacheName))
    ensures forall m :: m != StaticCacheName ==> Find(o.store, m) == Find(s, m)
    ensures DistinctNames(s) ==> DistinctNames(o.store)
  {
    var withStatic := Open(s, StaticCacheName);
    match AddAll(withStatic, StaticCacheName, Requests(origin, manifest), fetch)
    case Some(populated) => Installed(populated, true, false)
    case None => Installed(withStatic, false, true)
  }

  /** The manifest's inline icon is an absolute `data:` URL, which resolving
      leaves as it is and the Cache API refuses, so no origin and no fetch
      outcome lets `addAll` of the manifest succeed. */
  lemma IconRefused(origin: string)
    ensures HasScheme(InlineIcon) && Scheme(InlineIcon) == "data"
    ensures Resolve(origin, InlineIcon) == InlineIcon
    ensures !AllHttpUrls(Requests(origin, StaticAssets))
  {
    assert "data:" <= InlineIcon;
    SchemeOfPrefix(InlineIcon, "data");
    assert Lower("data") == "data";
    assert Scheme(InlineIcon) != "http" by {
      assert "data"[0] != "http"[0];
    }
    assert Scheme(InlineIcon) != "https";
    assert !IsHttpUrl(InlineIcon);
    assert InlineIcon in Requests(origin, StaticAssets) by {
      assert StaticAssets[5] == InlineIcon;
      assert Requests(origin, StaticAssets)[5] == InlineIcon;
    }
  }

  /** The install handler with the manifest as written. Whatever the origin
      and the network, `addAll` rejects: the error is logged, `skipWaiting()`
      is never requested, and the static partition keeps exactly its old
      entries. */
  function Install(s: Store, origin: string, fetch: string -> Net): (o: Installed)
    ensures !o.skipWaiting && o.errorLogged
    ensures Find(o.store, StaticCacheName) == Some(EntriesOf(s, StaticCacheName))
    ensures forall m :: m != StaticCacheName ==> Find(o.store, m) == Find(s, m)
    ensures DistinctNames(s) ==> DistinctNames(o.store)
  {
    IconRefused(origin);
    InstallWith(s, origin, StaticAssets, fetch)
  }

  /** The five site paths resolve to the origin followed by the path: distinct
      URLs, all http(s) exactly when the origin is. */
  lemma SitePathRequests(origin: string)
    ensures forall i :: 0 <= i < |SitePaths| ==> Requests(origin, SitePaths)[i] == origin + SitePaths[i]
    ensures AllHttpUrls(Requests(origin, SitePaths)) <==> IsHttpUrl(origin)
    ensures NoRepeats(Requests(origin, SitePaths))
  {
    var reqs := Requests(origin, SitePaths);
    forall i | 0 <= i < |SitePaths|
      ensures reqs[i] == origin + SitePaths[i]
      ensures IsHttpUrl(reqs[i]) <==> IsHttpUrl(origin)
    {
      assert SitePaths[i][0] == '/';
      ResolvePath(origin, SitePaths[i]);
    }
    ManifestDistinct();
    forall i, j | 0 <= i < j < |reqs|
      ensures reqs[i] != reqs[j]
    {
      if reqs[i] == reqs[j] {
        ResolveInjective(origin, SitePaths[i], SitePaths[j]);
      }
    }
    if !IsHttpUrl(origin) {
      assert reqs[0] in reqs;
    }
  }

  /** The install handler with the manifest evidently intended: the site
      paths, leaving out the inline icon. In a worker served over http(s) it
      succeeds exactly when every path fetches a response the Cache API
      stores, and the entries are keyed by the paths' full URLs. */
  function IntendedInstall(s: Store, origin: string, fetch: string -> Net): (o: Installed)
    ensures o.skipWaiting <==> IsHttpUrl(origin) && AllFetchedCacheable(Requests(origin, SitePaths), fetch)
    ensures o.errorLogged <==> !o.skipWaiting
    ensures o.skipWaiting ==>
              Find(o.store, StaticCacheName) ==
              Some(EntriesOf(s, StaticCacheName) + Fetched(Requests(origin, SitePaths), fetch))
    ensures !o.skipWaiting ==> Find(o.store, StaticCacheName) == Some(EntriesOf(s, StaticCacheName))
    ensures forall m :: m != StaticCacheName ==> Find(o.store, m) == Find(s, m)
    ensures DistinctNames(s) ==> DistinctNames(o.store)
  {
    SitePathRequests(origin);
    InstallWith(s, origin, SitePaths, fetch)
  }

  // ----- cleanup -----

  /** The two partitions of the running version. */
  predicate IsCurrent(n: string) {
    n == StaticCacheName || n == DynamicCacheName
  }

  /** Deleted at activation: every name that is not current. */
  predicate Obsolete(n: string) {
    !IsCurrent(n)
  }

  /** Deleted by the daily sweep: a versioned name ("-v") that is not current. */
  predicate Stale(n: string) {
    Contains(n, "-v") && !IsCurrent(n)
  }

  /** The names of `names` that `doomed` selects. */
  function Selected(names: seq<string>, doomed: string -> bool): set<string> {
    set n | n in names && doomed(n)
  }

  lemma SelectedSplit(names: seq<string>, doomed: string -> bool)
    requires |names| > 0
    ensures doomed(names[0]) ==> Selected(names, doomed) == {names[0]} + Selected(names[1..], doomed)
    ensures !doomed(names[0]) ==> Selected(names, doomed) == Selected(names[1..], doomed)
  {
  }

  /** `names.forEach(n => if (doomed(n)) caches.delete(n))` */
  function DeleteEach(s: Store, names: seq<string>, doomed: string -> bool): (r: Store)
    ensures forall m :: Find(r, m) == if m in names && doomed(m) then None else Find(s, m)
    decreases |names|
  {
    if |names| == 0 then s
    else if doomed(names[0]) then DeleteEach(Delete(s, names[0]), names[1..], doomed)
    else DeleteEach(s, names[1..], doomed)
  }

  lemma {:induction false} DeleteEachIsWithout(s: Store, names: seq<string>, doomed: string -> bool)
    ensures DeleteEach(s, names, doomed) == Without(s, Selected(names, doomed))
    decreases |names|
  {
    if |names| == 0 {
      assert Selected(names, doomed) == {};
      WithoutNothing(s, {});
    } else {
      var n := names[0];
      SelectedSplit(names, doomed);
      var rest := Selected(names[1..], doomed);
      if doomed(n) {
        DeleteEachIsWithout(Delete(s, n), names[1..], doomed);
        WithoutTwice(s, {n}, rest);
        assert DeleteEach(s, names, doomed) == DeleteEach(Delete(s, n), names[1..], doomed);
        assert Delete(s, n) == Without(s, {n});
        assert Selected(names, doomed) == {n} + rest;
      } else {
        DeleteEachIsWithout(s, names[1..], doomed);
        assert DeleteEach(s, names, doomed) == DeleteEach(s, names[1..], doomed);
        assert Selected(names, doomed) == rest;
      }
    }
  }

  /** Outcome of the activate handler: the store, and whether open clients
      are claimed once the deletions have finished. */
  datatype Activated = Activated(store: Store, claimsClients: bool)

  /** The activate handler: delete every partition that is not current. */
  function Activate(s: Store): (a: Activated)
    ensures forall m :: Find(a.store, m) == if IsCurrent(m) then Find(s, m) else None
    ensures forall p :: p in a.store <==> p in s && IsCurrent(p.name)
    ensures a.claimsClients
    ensures DistinctNames(s) ==> DistinctNames(a.store)
  {
    DeleteEachIsWithout(s, Names(s), Obsolete);
    WithoutSpec(s, Selected(Names(s), Obsolete));
    NamesMembership(s);
    Activated(DeleteEach(s, Names(s), Obsolete), true)
  }

  /** The daily sweep: delete every stale partition. */
  function PeriodicCleanup(s: Store): (r: Store)
    ensures forall m :: Find(r, m) == if Stale(m) then None else Find(s, m)
    ensures forall p :: p in r <==> p in s && !Stale(p.name)
    ensures DistinctNames(s) ==> DistinctNames(r)
  {
    DeleteEachIsWithout(s, Names(s), Stale);
    WithoutSpec(s, Selected(Names(s), Stale));
    NamesMembership(s);
    DeleteEach(s, Names(s), Stale)
  }

  // ----- properties -----

  /** Install is all or nothing for the manifest: either every manifest URL is
      stored, under its resolved URL, with its fetched response, or the
      static partition keeps exactly the entries it had (and exists, since it
      was opened). */
  lemma InstallAllOrNothing(s: Store, origin: string, manifest: seq<string>, fetch: string -> Net, u: string)
    requires u in manifest
    ensures var o := InstallWith(s, origin, manifest, fetch);
            var key := Resolve(origin, u);
            && Find(o.store, StaticCacheName).Some?
            && (o.skipWaiting ==>
                  key in EntriesOf(o.store, StaticCacheName)
                  && EntriesOf(o.store, StaticCacheName)[key] == fetch(key).resp)
            && (!o.skipWaiting ==>
                  (key in EntriesOf(o.store, StaticCacheName) <==> key in EntriesOf(s, StaticCacheName)))
  {
    var i :| 0 <= i < |manifest| && manifest[i] == u;
    assert Requests(origin, manifest)[i] == Resolve(origin, u);
  }

  /** No URL appears twice in the manifest, and the site paths are its first
      five entries. */
  lemma ManifestDistinct()
    ensures |StaticAssets| == 6
    ensures forall i, j :: 0 <= i < j < |StaticAssets| ==> StaticAssets[i] != StaticAssets[j]
    ensures SitePaths == StaticAssets[..5]
    ensures forall i, j :: 0 <= i < j < |SitePaths| ==> SitePaths[i] != SitePaths[j]
  {
  }

  /** A sequence without repetitions has as many distinct elements as entries. */
  lemma {:induction false} DistinctCount(a: seq<string>)
    requires forall i, j :: 0 <= i < j < |a| ==> a[i] != a[j]
    ensures |set u | u in a| == |a|
  {
    if |a| != 0 {
      var rest := a[1..];
      assert forall i, j :: 0 <= i < j < |rest| ==> rest[i] != rest[j] by {
        forall i, j | 0 <= i < j < |rest| ensures rest[i] != rest[j] {
          assert rest[i] == a[i + 1] && rest[j] == a[j + 1];
        }
      }
      DistinctCount(rest);
      assert a[0] !in rest;
      assert (set u | u in a) == {a[0]} + (set u | u in rest);
    }
  }

  lemma EmptyUnion(m: map<string, Resp>)
    ensures map[] + m == m
  {
  }

  /** A successful install of the site paths into a store without a static
      partition leaves it holding exactly the five paths' full URLs. */
  lemma InstallFromScratch(s: Store, origin: string, fetch: string -> Net)
    requires Find(s, StaticCacheName).None?
    requires IsHttpUrl(origin)
    requires AllFetchedCacheable(Requests(origin, SitePaths), fetch)
    ensures IntendedInstall(s, origin, fetch).skipWaiting
    ensures EntriesOf(IntendedInstall(s, origin, fetch).store, StaticCacheName).Keys
            == set u | u in Requests(origin, SitePaths)
    ensures |EntriesOf(IntendedInstall(s, origin, fetch).store, StaticCacheName)| == 5
  {
    var reqs := Requests(origin, SitePaths);
    var e := EntriesOf(IntendedInstall(s, origin, fetch).store, StaticCacheName);
    var fetched := Fetched(reqs, fetch);
    assert EntriesOf(s, StaticCacheName) == map[];
    EmptyUnion(fetched);
    assert e == fetched;
    SitePathRequests(origin);
    DistinctCount(reqs);
  }

  /** A successful intended install into an empty store leaves exactly one
      partition: the static one, holding the fetched site paths. */
  lemma FreshIntendedInstall(origin: string, fetch: string -> Net)
    requires IntendedInstall([], origin, fetch).skipWaiting
    ensures AllFetchedCacheable(Requests(origin, SitePaths), fetch)
    ensures IntendedInstall([], origin, fetch).store
            == [Partition(StaticCacheName, Fetched(Requests(origin, SitePaths), fetch))]
  {
    var o := IntendedInstall([], origin, fetch);
    var fetched := Fetched(Requests(origin, SitePaths), fetch);
    assert EntriesOf([], StaticCacheName) == map[];
    EmptyUnion(fetched);
    assert DistinctNames([]);
    OnlyPartition(o.store, StaticCacheName, fetched);
  }

  /** Activating twice is activating once. */
  lemma ActivateIdempotent(s: Store)
    ensures Activate(Activate(s).store) == Activate(s)
  {
    var x := Activate(s).store;
    DeleteEachIsWithout(x, Names(x), Obsolete);
    NamesMembership(x);
    WithoutNothing(x, Selected(Names(x), Obsolete));
  }

  /** Every name the daily sweep deletes is one activation deletes too, and
      neither ever deletes a current partition. */
  lemma SweepWithinActivation(n: string)
    ensures Stale(n) ==> Obsolete(n)
    ensures IsCurrent(n) ==> !Stale(n) && !Obsolete(n)
    ensures !Contains(n, "-v") ==> !Stale(n)
  {
  }

  /** Sweeping before activating changes nothing about what activation leaves;
      what activation leaves always survives the sweep. */
  lemma {:induction false} SweepThenActivate(s: Store)
    ensures Activate(PeriodicCleanup(s)).store == Activate(s).store
    ensures forall p :: p in Activate(s).store ==> p in PeriodicCleanup(s)
  {
    var stale := Selected(Names(s), Stale);
    var swept := PeriodicCleanup(s);
    DeleteEachIsWithout(s, Names(s), Stale);
    DeleteEachIsWithout(swept, Names(swept), Obsolete);
    DeleteEachIsWithout(s, Names(s), Obsolete);
    var obsoleteAfter := Selected(Names(swept), Obsolete);
    WithoutTwice(s, stale, obsoleteAfter);
    NamesMembership(s);
    NamesMembership(swept);
    forall p | p in s
      ensures p.name in stale + obsoleteAfter <==> p.name in Selected(Names(s), Obsolete)
    {
      if Obsolete(p.name) && !Stale(p.name) {
        assert p in swept;
      }
    }
    WithoutAgrees(s, stale + obsoleteAfter, Selected(Names(s), Obsolete));
  }

  /** The superseded single-cache name of an earlier release is removed by
      both cleanups. */
  lemma LegacyCacheRemoved(s: Store)
    ensures Find(Activate(s).store, LegacyCacheName).None?
    ensures Find(PeriodicCleanup(s), LegacyCacheName).None?
  {
    assert OccursAt(LegacyCacheName, "-v", 17);
  }

  lemma SelectedHas(names: seq<string>, doomed: string -> bool, i: nat)
    requires i < |names| && doomed(names[i])
    ensures names[i] in Selected(names, doomed)
  {
  }

  lemma {:induction false} WithoutFive(s: Store, gone: set<string>)
    requires |s| == 5
    requires s[0].name in gone && s[2].name in gone && s[4].name in gone
    requires s[1].name !in gone && s[3].name !in gone
    ensures Without(s, gone) == [s[1], s[3]]
  {
    var t4: Store := [s[4]];
    var t3: Store := [s[3]] + t4;
    var t2: Store := [s[2]] + t3;
    var t1: Store := [s[1]] + t2;
    assert s == [s[0]] + t1;
    assert t4 == [s[4]] + [];
    WithoutCons(s[4], [], gone);
    WithoutCons(s[3], t4, gone);
    WithoutCons(s[2], t3, gone);
    WithoutCons(s[1], t2, gone);
    WithoutCons(s[0], t1, gone);
  }

  /** Activation over the current pair interleaved with three superseded
      partitions (say the legacy one, an older static version and an orphan)
      keeps exactly the current pair, contents and order unchanged. */
  lemma ActivationScenario(x: Partition, y: Partition, z: Partition, st: Entries, dy: Entries)
    requires Obsolete(x.name) && Obsolete(y.name) && Obsolete(z.name)
    ensures Activate([x, Partition(StaticCacheName, st), y, Partition(DynamicCacheName, dy), z]).store
            == [Partition(StaticCacheName, st), Partition(DynamicCacheName, dy)]
  {
    var s := [x, Partition(StaticCacheName, st), y, Partition(DynamicCacheName, dy), z];
    var names := Names(s);
    var gone := Selected(names, Obsolete);
    DeleteEachIsWithout(s, names, Obsolete);
    assert names[0] == x.name && names[2] == y.name && names[4] == z.name;
    SelectedHas(names, Obsolete, 0);
    SelectedHas(names, Obsolete, 2);
    SelectedHas(names, Obsolete, 4);
    WithoutFive(s, gone);
  }
}

=== FILE: router.dfy ===
/** The fetch handler's classification of a request into a caching strategy:
    an ordered table of rules, the first rule that fires decides. */
module Router {
  import opened Text
  import opened Config

  datatype Strategy = PassThrough | NetworkFirst | CacheFirst | StaleWhileRevalidate

  /** What the router reads of a request: the full URL string, the URL's
      pathname and `request.destination`. */
  datatype Request = Request(url: string, pathname: string, destination: string)

  datatype Test =
    | NotHttp                       // the URL does not start with "http"
    | PathStartsWith(prefix: string)
    | DestinationIs(dest: string)
    | PathEndsWith(suffix: string)

  datatype Rule = Rule(test: Test, strategy: Strategy)

  predicate Fires(t: Test, req: Request) {
    match t
    case NotHttp => !StartsWith(req.url, "http")
    case PathStartsWith(p) => StartsWith(req.pathname, p)
    case DestinationIs(d) => req.destination == d
    case PathEndsWith(x) => EndsWith(req.pathname, x)
  }

  function PassThroughRules(): seq<Rule> {
    [Rule(NotHttp, PassThrough)]
  }

  function NetworkFirstRules(): seq<Rule> {
    seq(|NetworkFirstPrefixes|, i requires 0 <= i < |NetworkFirstPrefixes| =>
      Rule(PathStartsWith(NetworkFirstPrefixes[i]), NetworkFirst))
  }

  function CacheFirstRules(): seq<Rule> {
    seq(|StaticDestinations|, i requires 0 <= i < |StaticDestinations| =>
      Rule(DestinationIs(StaticDestinations[i]), CacheFirst))
    + seq(|StaticExtensions|, i requires 0 <= i < |StaticExtensions| =>
      Rule(PathEndsWith(StaticExtensions[i]), CacheFirst))
  }

  /** The rules in the order the fetch handler tests them. */
  function Rules(): seq<Rule> {
    PassThroughRules() + NetworkFirstRules() + CacheFirstRules()
  }

  /** Position of the first rule that fires, or `|rules|` when none does. */
  function FirstFiring(rules: seq<Rule>, req: Request): (i: nat)
    ensures i <= |rules|
    ensures forall j :: 0 <= j < i ==> !Fires(rules[j].test, req)
    ensures i < |rules| ==> Fires(rules[i].test, req)
  {
    if |rules| == 0 then 0
    else if Fires(rules[0].test, req) then 0
    else 1 + FirstFiring(rules[1..], req)
  }

  /** First-match-wins evaluation of a rule table. */
  function Decide(rules: seq<Rule>, req: Request, fallback: Strategy): Strategy {
    var i := FirstFiring(rules, req);
    if i < |rules| then rules[i].strategy else fallback
  }

  predicate AnyFires(rules: seq<Rule>, req: Request) {
    exists i :: 0 <= i < |rules| && Fires(rules[i].test, req)
  }

  lemma FirstFiringUnique(rules: seq<Rule>, req: Request, i: nat)
    requires i <= |rules|
    requires forall j :: 0 <= j < i ==> !Fires(rules[j].test, req)
    requires i < |rules| ==> Fires(rules[i].test, req)
    ensures FirstFiring(rules, req) == i
  {
  }

  /** A table split in two: the second half is consulted only when no rule
      of the first fires. */
  lemma DecideAppend(a: seq<Rule>, b: seq<Rule>, req: Request, fallback: Strategy)
    ensures Decide(a + b, req, fallback) ==
            if AnyFires(a, req) then Decide(a, req, fallback) else Decide(b, req, fallback)
  {
    var k := FirstFiring(a, req);
    if k < |a| {
      FirstFiringUnique(a + b, req, k);
    } else {
      var m := FirstFiring(b, req);
      assert forall j :: |a| <= j < |a| + m ==> (a + b)[j] == b[j - |a|];
      FirstFiringUnique(a + b, req, |a| + m);
    }
  }

  /** A table whose rules all name one strategy decides that strategy exactly
      when one of its rules fires. */
  lemma DecideUniform(rules: seq<Rule>, req: Request, st: Strategy, fallback: Strategy)
    requires forall i :: 0 <= i < |rules| ==> rules[i].strategy == st
    ensures Decide(rules, req, fallback) == if AnyFires(rules, req) then st else fallback
  {
  }

  /** Some always-fresh prefix starts the path. */
  predicate AlwaysFresh(pathname: string) {
    exists i :: 0 <= i < |NetworkFirstPrefixes| && StartsWith(pathname, NetworkFirstPrefixes[i])
  }

  /** A style, script or image request, or a path with a static-asset extension. */
  predicate StaticResource(req: Request) {
    || (exists i :: 0 <= i < |StaticDestinations| && req.destination == StaticDestinations[i])
    || (exists i :: 0 <= i < |StaticExtensions| && EndsWith(req.pathname, StaticExtensions[i]))
  }

  /** The handler's first test: the URL string starts with "http". This is a
      prefix test on the text, not a check of the scheme. */
  predicate StartsWithHttp(req: Request) {
    StartsWith(req.url, "http")
  }

  lemma PassThroughRuleFires(req: Request)
    ensures AnyFires(PassThroughRules(), req) <==> !StartsWithHttp(req)
  {
    assert Fires(PassThroughRules()[0].test, req) <==> !StartsWithHttp(req);
  }

  lemma NetworkFirstRulesFire(req: Request)
    ensures AnyFires(NetworkFirstRules(), req) <==> AlwaysFresh(req.pathname)
  {
    var nf := NetworkFirstRules();
    assert forall i :: 0 <= i < |nf| ==> nf[i].test == PathStartsWith(NetworkFirstPrefixes[i]);
  }

  lemma CacheFirstRulesFire(req: Request)
    ensures AnyFires(CacheFirstRules(), req) <==> StaticResource(req)
  {
    var cf := CacheFirstRules();
    var d := |StaticDestinations|;
    assert forall i :: 0 <= i < d ==> cf[i].test == DestinationIs(StaticDestinations[i]);
    assert forall i :: d <= i < |cf| ==> cf[i].test == PathEndsWith(StaticExtensions[i - d]);
    if StaticResource(req) {
      if i :| 0 <= i < |StaticExtensions| && EndsWith(req.pathname, StaticExtensions[i]) {
        assert Fires(cf[d + i].test, req);
      }
    }
  }

  /** The fetch handler's routing decision. */
  function Route(req: Request): (st: Strategy)
    ensures st == PassThrough <==> !StartsWithHttp(req)
    ensures st == NetworkFirst <==> StartsWithHttp(req) && AlwaysFresh(req.pathname)
    ensures st == CacheFirst <==> StartsWithHttp(req) && !AlwaysFresh(req.pathname) && StaticResource(req)
    ensures st == StaleWhileRevalidate <==> StartsWithHttp(req) && !AlwaysFresh(req.pathname) && !StaticResource(req)
  {
    var pt, nf, cf := PassThroughRules(), NetworkFirstRules(), CacheFirstRules();
    assert Rules() == pt + (nf + cf);
    DecideAppend(pt, nf + cf, req, StaleWhileRevalidate);
    DecideAppend(nf, cf, req, StaleWhileRevalidate);
    DecideUniform(pt, req, PassThrough, StaleWhileRevalidate);
    DecideUniform(nf, req, NetworkFirst, StaleWhileRevalidate);
    DecideUniform(cf, req, CacheFirst, StaleWhileRevalidate);
    PassThroughRuleFires(req);
    NetworkFirstRulesFire(req);
    CacheFirstRulesFire(req);
    Decide(Rules(), req, StaleWhileRevalidate)
  }
}

=== FILE: service_worker.dfy ===
/** The fetch handler: route the request, then run the chosen strategy with
    the request's URL as the cache key. */
module ServiceWorker {
  import opened Http
  import opened Text
  import opened CacheStorage
  import opened Config
  import Router
  import opened Strategies
  import Lifecycle
  import Url

  function HandleFetch(s: Store, req: Router.Request, net: Net): (o: Outcome)
    ensures o.reply == NotIntercepted <==> !Router.StartsWithHttp(req)
    ensures o.reply == NotIntercepted ==> o.store == s && o.fetches == 0
    ensures o.fetches <= 1
    ensures TouchesOnly(s, o.store, req.url)
    ensures DistinctNames(s) ==> DistinctNames(o.store)
  {
    var key := req.url;
    match Router.Route(req)
    case PassThrough => Outcome(NotIntercepted, s, 0)
    case NetworkFirst => Strategies.NetworkFirst(s, key, net)
    case CacheFirst => Strategies.CacheFirst(s, key, net)
    case StaleWhileRevalidate => Strategies.StaleWhileRevalidate(s, key, net)
  }

  /** A request to `/api/contact` with the network down and nothing cached is
      answered with network-first's 503, without failing. */
  lemma ScenarioContactOffline(s: Store, url: string, destination: string)
    requires StartsWith(url, "http")
    requires MatchAll(s, url).None?
    ensures var o := HandleFetch(s, Router.Request(url, "/api/contact", destination), Fail);
            && o.reply == Served(UnavailableFallback)
            && o.reply.resp.status == 503
            && o.store == s
  {
    assert StartsWith("/api/contact", NetworkFirstPrefixes[0]);
  }

  /** A request for `/style.css` that the static partition (the first one
      created) holds is answered from it with no fetch. */
  lemma ScenarioStyleFromStatic(s: Store, url: string, destination: string, net: Net)
    requires StartsWith(url, "http")
    requires |s| > 0 && s[0].name == StaticCacheName && url in s[0].entries
    ensures var o := HandleFetch(s, Router.Request(url, "/style.css", destination), net);
            o == Outcome(Served(s[0].entries[url]), s, 0)
  {
    var path := "/style.css";
    assert !Router.AlwaysFresh(path) by {
      assert path[1] == 's';
    }
    assert EndsWith(path, StaticExtensions[0]);
    FirstHoldingUnique(s, url, 0);
  }

  /** A navigation to `/` with a stale copy in the dynamic partition and a
      reachable network answers with the stale copy; the next navigation gets
      the fresh one. */
  lemma ScenarioNavigationRevalidates(s: Store, url: string, latest: Resp, net2: Net)
    requires StartsWith(url, "http")
    requires url in EntriesOf(s, DynamicCacheName)
    requires Cacheable(latest)
    ensures var req := Router.Request(url, "/", "document");
            var o1 := HandleFetch(s, req, Ok(latest));
            && o1.reply == Served(EntriesOf(s, DynamicCacheName)[url])
            && HandleFetch(o1.store, req, net2).reply == Served(latest)
  {
    NavigationIsRevalidated(url);
  }

  lemma NavigationIsRevalidated(url: string)
    requires StartsWith(url, "http")
    ensures Router.Route(Router.Request(url, "/", "document")) == Router.StaleWhileRevalidate
  {
    var req := Router.Request(url, "/", "document");
    assert !Router.StaticResource(req) by {
      assert forall i :: 0 <= i < |StaticExtensions| ==> |StaticExtensions[i]| > 1;
    }
  }

  /** Requests that are not http(s) never reach a strategy or the store. */
  lemma NonHttpUntouched(s: Store, req: Router.Request, net: Net)
    requires !StartsWith(req.url, "http")
    ensures HandleFetch(s, req, net) == Outcome(NotIntercepted, s, 0)
  {
  }

  /** An always-fresh path goes to network-first even when it ends in a
      cache-first extension. */
  lemma ApiJsonIsNetworkFirst(url: string, destination: string)
    requires StartsWith(url, "http")
    ensures Router.Route(Router.Request(url, "/api/data.json", destination)) == Router.NetworkFirst
  {
    assert StartsWith("/api/data.json", NetworkFirstPrefixes[0]);
  }

  /** From install to the fetch handler: once the intended install has stored
      the site paths, a request for the stylesheet's full URL is answered
      from the static partition with no fetch, whatever the network does. */
  lemma InstalledStyleServedFromCache(origin: string, fetch: string -> Net, css: Resp, net: Net)
    requires StartsWith(origin, "http") && Url.IsHttpUrl(origin)
    requires forall p :: p in SitePaths ==> FetchedCacheable(fetch(origin + p))
    requires fetch(origin + "/style.css") == Ok(css)
    ensures Lifecycle.IntendedInstall([], origin, fetch).skipWaiting
    ensures var store := Lifecycle.IntendedInstall([], origin, fetch).store;
            var url := origin + "/style.css";
            HandleFetch(store, Router.Request(url, "/style.css", "style"), net) == Outcome(Served(css), store, 0)
  {
    var url := origin + "/style.css";
    Lifecycle.SitePathRequests(origin);
    assert Lifecycle.AllFetchedCacheable(Lifecycle.Requests(origin, SitePaths), fetch) by {
      forall u | u in Lifecycle.Requests(origin, SitePaths)
        ensures FetchedCacheable(fetch(u))
      {
        var i :| 0 <= i < |SitePaths| && Lifecycle.Requests(origin, SitePaths)[i] == u;
        assert SitePaths[i] in SitePaths;
      }
    }
    Lifecycle.FreshIntendedInstall(origin, fetch);
    var reqs := Lifecycle.Requests(origin, SitePaths);
    var fetched := Lifecycle.Fetched(reqs, fetch);
    assert reqs[2] == url;
    assert url in fetched && fetched[url] == fetch(url).resp;
    StyleFromSoleStatic(fetched, url, net);
  }

  lemma StyleFromSoleStatic(e: Entries, url: string, net: Net)
    requires StartsWith(url, "http") && url in e
    ensures var store := [Partition(StaticCacheName, e)];
            HandleFetch(store, Router.Request(url, "/style.css", "style"), net)
            == Outcome(Served(e[url]), store, 0)
  {
    ScenarioStyleFromStatic([Partition(StaticCacheName, e)], url, "style", net);
  }
}

=== FILE: strategies.dfy ===
/** The three fetch strategies. Each takes the store, the request key (its URL)
    and the outcome of the one network fetch it may make, and yields the reply,
    the store afterwards and the number of fetches made. Write-back to the
    dynamic partition is taken to complete within the same step. */
module Strategies {
  import opened Http
  import opened CacheStorage
  import opened Config

  /** What the fetch handler hands back: nothing (the browser handles the
      request itself), a response, or a promise settling to `undefined`. */
  datatype Reply = NotIntercepted | Served(resp: Resp) | NoResponse

  datatype Outcome = Outcome(reply: Reply, store: Store, fetches: nat)

  /** Cache-first's answer when both cache and network miss. */
  const OfflineFallback: Resp := Resp(503, "Service Unavailable", "Conteúdo não disponível offline")

  /** Network-first's answer when both network and cache miss. */
  const UnavailableFallback: Resp := Resp(503, "Service Unavailable", "Conteúdo não disponível")

  /** `s2` is `s1` with `resp` stored under `key` in the dynamic partition when
      the Cache API stores the response; `s1` with the dynamic partition
      opened (created if missing) when the response is ok but partial
      content, which `put` then refuses; and `s1` itself otherwise. */
  ghost predicate WroteBack(s1: Store, s2: Store, key: string, resp: Resp) {
    if Cacheable(resp) then
      && Find(s2, DynamicCacheName) == Some(EntriesOf(s1, DynamicCacheName)[key := resp])
      && (forall m :: m != DynamicCacheName ==> Find(s2, m) == Find(s1, m))
      && Names(s2) == Names(Open(s1, DynamicCacheName))
    else if IsOk(resp) then s2 == Open(s1, DynamicCacheName)
    else s2 == s1
  }

  /** From `s1` to `s2` nothing changed but the dynamic partition's entry for
      `key`, and no entry was removed. The partitions keep their creation
      order, the dynamic one being created last if it was missing, so
      `caches.match` answers every other key as before. */
  ghost predicate TouchesOnly(s1: Store, s2: Store, key: string) {
    && (forall m :: m != DynamicCacheName ==> Find(s2, m) == Find(s1, m))
    && (s2 == s1 || Names(s2) == Names(Open(s1, DynamicCacheName)))
    && (forall k :: k != key ==> MatchAll(s2, k) == MatchAll(s1, k))
    && EntriesOf(s2, DynamicCacheName) - {key} == EntriesOf(s1, DynamicCacheName) - {key}
    && EntriesOf(s1, DynamicCacheName).Keys <= EntriesOf(s2, DynamicCacheName).Keys
  }

  lemma OverwriteTouchesOnly(e: Entries, key: string, resp: Resp)
    ensures e[key := resp] - {key} == e - {key}
    ensures e.Keys <= e[key := resp].Keys
  {
  }

  /** The worker's `caches.open(DYNAMIC_CACHE_NAME)` and
      `cache.put(request, networkResponse.clone())`, guarded by
      `networkResponse.ok`. The open is awaited and creates the partition
      when it is missing. The put is not awaited: for a 206 response it
      rejects, nothing is stored, and the rejection only reaches the worker's
      `unhandledrejection` handler. */
  function WriteBack(s: Store, key: string, resp: Resp): (r: Store)
    ensures WroteBack(s, r, key, resp)
    ensures TouchesOnly(s, r, key)
    ensures DistinctNames(s) ==> DistinctNames(r)
  {
    OverwriteTouchesOnly(EntriesOf(s, DynamicCacheName), key, resp);
    if !IsOk(resp) then s
    else if resp.status == PartialContent then Open(s, DynamicCacheName)
    else Put(s, DynamicCacheName, key, resp)
  }

  function ToReply(r: Option<Resp>): Reply {
    match r
    case Some(resp) => Served(resp)
    case None => NoResponse
  }

  /** Serve from any partition; on a miss fetch, store an ok response in the
      dynamic partition, and answer 503 when the fetch rejects. */
  function CacheFirst(s: Store, key: string, net: Net): (o: Outcome)
    ensures o.reply.Served?
    ensures MatchAll(s, key).Some? ==>
              o.reply == Served(MatchAll(s, key).value) && o.store == s && o.fetches == 0
    ensures MatchAll(s, key).None? ==> o.fetches == 1
    ensures MatchAll(s, key).None? && net.Ok? ==>
              o.reply == Served(net.resp) && WroteBack(s, o.store, key, net.resp)
    ensures MatchAll(s, key).None? && net.Fail? ==>
              o.reply == Served(OfflineFallback) && o.store == s
    ensures TouchesOnly(s, o.store, key)
    ensures DistinctNames(s) ==> DistinctNames(o.store)
  {
    match MatchAll(s, key)
    case Some(cached) => Outcome(Served(cached), s, 0)
    case None =>
      match net
      case Ok(resp) => Outcome(Served(resp), WriteBack(s, key, resp), 1)
      case Fail => Outcome(Served(OfflineFallback), s, 1)
  }

  /** Fetch first and return whatever arrives, storing it when ok; consult the
      store (all partitions) only when the fetch rejects. */
  function NetworkFirst(s: Store, key: string, net: Net): (o: Outcome)
    ensures o.reply.Served? && o.fetches == 1
    ensures net.Ok? ==> o.reply == Served(net.resp) && WroteBack(s, o.store, key, net.resp)
    ensures net.Fail? ==> o.store == s
    ensures net.Fail? && MatchAll(s, key).Some? ==> o.reply == Served(MatchAll(s, key).value)
    ensures net.Fail? && MatchAll(s, key).None? ==> o.reply == Served(UnavailableFallback)
    ensures TouchesOnly(s, o.store, key)
    ensures DistinctNames(s) ==> DistinctNames(o.store)
  {
    match net
    case Ok(resp) => Outcome(Served(resp), WriteBack(s, key, resp), 1)
    case Fail =>
      match MatchAll(s, key)
      case Some(cached) => Outcome(Served(cached), s, 1)
      case None => Outcome(Served(UnavailableFallback), s, 1)
  }

  /** Open the dynamic partition, read it, always fetch; answer with the cached
      entry when there is one and otherwise with the network's answer, and
      store an ok network response for the next request. */
  function StaleWhileRevalidate(s: Store, key: string, net: Net): (o: Outcome)
    ensures o.fetches == 1
    ensures key in EntriesOf(s, DynamicCacheName) ==>
              o.reply == Served(EntriesOf(s, DynamicCacheName)[key])
    ensures key !in EntriesOf(s, DynamicCacheName) && net.Ok? ==> o.reply == Served(net.resp)
    ensures o.reply == NoResponse <==> key !in EntriesOf(s, DynamicCacheName) && net.Fail?
    ensures Find(o.store, DynamicCacheName) ==
              Some(if FetchedCacheable(net) then EntriesOf(s, DynamicCacheName)[key := net.resp]
                   else EntriesOf(s, DynamicCacheName))
    ensures TouchesOnly(s, o.store, key)
    ensures DistinctNames(s) ==> DistinctNames(o.store)
  {
    var withDynamic := Open(s, DynamicCacheName);
    var cached := MatchIn(withDynamic, DynamicCacheName, key);
    var revalidated := match net
      case Ok(resp) => Served(resp)
      case Fail => ToReply(cached);
    var after := (
      match net
      case Ok(resp) =>
        OverwriteTouchesOnly(EntriesOf(s, DynamicCacheName), key, resp);
        WriteBack(withDynamic, key, resp)
      case Fail => withDynamic);
    var reply := if cached.Some? then Served(cached.value) else revalidated;
    Outcome(reply, after, 1)
  }

  /** Once cache-first has answered from the store or stored an ok response,
      asking again gives the same answer from the store with no fetch. */
  lemma CacheFirstRepeats(s: Store, key: string, net1: Net, net2: Net)
    requires MatchAll(s, key).Some? || FetchedCacheable(net1)
    ensures var o1 := CacheFirst(s, key, net1);
            CacheFirst(o1.store, key, net2) == Outcome(o1.reply, o1.store, 0)
  {
    if MatchAll(s, key).None? {
      MatchAllAfterPut(s, DynamicCacheName, key, net1.resp);
    }
  }

  /** Network-first falls back, when offline, to the response it stored while
      online, provided no partition other than the dynamic one holds the key. */
  lemma NetworkFirstOfflineAfterOnline(s: Store, key: string, resp: Resp)
    requires Cacheable(resp)
    requires forall i :: 0 <= i < |s| && s[i].name != DynamicCacheName ==> key !in s[i].entries
    ensures var o1 := NetworkFirst(s, key, Ok(resp));
            NetworkFirst(o1.store, key, Fail) == Outcome(Served(resp), o1.store, 1)
  {
    MatchAllAfterPut(s, DynamicCacheName, key, resp);
  }

  /** When an earlier-created partition (the static one) also holds the key,
      the offline fallback of network-first serves that older copy rather than
      the response it stored in the dynamic partition. */
  lemma NetworkFirstOfflineShadowed(key: string, stored: Resp, latest: Resp)
    requires Cacheable(latest) && stored != latest
    ensures var s := [Partition(StaticCacheName, map[key := stored]), Partition(DynamicCacheName, map[])];
            var o1 := NetworkFirst(s, key, Ok(latest));
            NetworkFirst(o1.store, key, Fail).reply == Served(stored)
  {
    var s := [Partition(StaticCacheName, map[key := stored]), Partition(DynamicCacheName, map[])];
    var o1 := NetworkFirst(s, key, Ok(latest));
    assert o1.store == [Partition(StaticCacheName, map[key := stored]), Partition(DynamicCacheName, map[key := latest])];
    FirstHoldingUnique(o1.store, key, 0);
  }

  /** Stale-while-revalidate serves the stored entry and, when the network
      answers ok, the next request gets the latest response. */
  lemma RevalidatedForNextRequest(s: Store, key: string, latest: Resp, net2: Net)
    requires Cacheable(latest)
    ensures var o1 := StaleWhileRevalidate(s, key, Ok(latest));
            && (key in EntriesOf(s, DynamicCacheName) ==> o1.reply == Served(EntriesOf(s, DynamicCacheName)[key]))
            && StaleWhileRevalidate(o1.store, key, net2).reply == Served(latest)
  {
  }

  /** A rejected fetch, or a response that is not ok or is partial content,
      never replaces what stale-while-revalidate has stored. */
  lemma RevalidationKeepsOnFailure(s: Store, key: string, net: Net, net2: Net)
    requires key in EntriesOf(s, DynamicCacheName)
    requires !FetchedCacheable(net)
    ensures var o1 := StaleWhileRevalidate(s, key, net);
            StaleWhileRevalidate(o1.store, key, net2).reply == Served(EntriesOf(s, DynamicCacheName)[key])
  {
  }

  /** A partial-content response is passed on to the page but never stored:
      the next request without a stored copy fetches again. */
  lemma PartialContentNotStored(s: Store, key: string, partial: Resp, net2: Net)
    requires IsOk(partial) && partial.status == PartialContent
    requires key !in EntriesOf(s, DynamicCacheName)
    ensures var o1 := StaleWhileRevalidate(s, key, Ok(partial));
            && o1.reply == Served(partial)
            && key !in EntriesOf(o1.store, DynamicCacheName)
            && StaleWhileRevalidate(o1.store, key, net2).reply == (if net2.Ok? then Served(net2.resp) else NoResponse)
  {
  }

  /** An ok partial-content response fetched on a miss is passed on, and the
      dynamic partition that `caches.open` created stays empty. */
  lemma PartialContentOpensDynamic(key: string, partial: Resp)
    requires IsOk(partial) && partial.status == PartialContent
    ensures CacheFirst([], key, Ok(partial)) == Outcome(Served(partial), [Partition(DynamicCacheName, map[])], 1)
    ensures NetworkFirst([], key, Ok(partial)) == Outcome(Served(partial), [Partition(DynamicCacheName, map[])], 1)
  {
    assert Find([], DynamicCacheName).None?;
    assert Open([], DynamicCacheName) == [Partition(DynamicCacheName, map[])];
  }
}

=== FILE: text.dfy ===
/** The string tests of `String.prototype` that the worker relies on. */
module Text {

  /** `s.startsWith(prefix)` */
  predicate StartsWith(s: string, prefix: string) {
    prefix <= s
  }

  /** `s.endsWith(suffix)` */
  predicate EndsWith(s: string, suffix: string) {
    |suffix| <= |s| && s[|s| - |suffix|..] == suffix
  }

  /** `sub` occurs in `s` starting at position `i`. */
  predicate OccursAt(s: string, sub: string, i: nat) {
    i + |sub| <= |s| && s[i..i + |sub|] == sub
  }

  /** `s.includes(sub)` */
  predicate Contains(s: string, sub: string) {
    exists i: nat | i <= |s| :: OccursAt(s, sub, i)
  }
}

=== FILE: url.dfy ===
/** The part of URL parsing that the Cache API's scheme rule needs: whether a
    URL string starts with a scheme, and which one (section 3.1 of RFC 3986;
    the WHATWG URL parser's scheme state reads the same characters). */
module Url {

  predicate IsAlpha(c: char) {
    'a' <= c <= 'z' || 'A' <= c <= 'Z'
  }

  /** A character allowed after a scheme's first letter. */
  predicate IsSchemeChar(c: char) {
    IsAlpha(c) || '0' <= c <= '9' || c == '+' || c == '-' || c == '.'
  }

  function LowerChar(c: char): char {
    if 'A' <= c <= 'Z' then (c as int + 32) as char else c
  }

  /** ASCII lower-casing; the URL parser stores schemes in lower case. */
  function Lower(s: string): (r: string)
    ensures |r| == |s|
    ensures forall i :: 0 <= i < |s| ==> r[i] == LowerChar(s[i])
  {
    seq(|s|, i requires 0 <= i < |s| => LowerChar(s[i]))
  }

  /** The end of the run of scheme characters of `u` that starts at `i`. */
  function ScanScheme(u: string, i: nat): (k: nat)
    requires i <= |u|
    ensures i <= k <= |u|
    ensures forall j :: i <= j < k ==> IsSchemeChar(u[j])
    ensures k < |u| ==> !IsSchemeChar(u[k])
    decreases |u| - i
  {
    if i == |u| || !IsSchemeChar(u[i]) then i else ScanScheme(u, i + 1)
  }

  /** `u` is absolute: a letter, then scheme characters, then ':'. Anything
      else is a relative reference. */
  predicate HasScheme(u: string) {
    |u| > 0 && IsAlpha(u[0]) && ScanScheme(u, 1) < |u| && u[ScanScheme(u, 1)] == ':'
  }

  /** The scheme of an absolute URL, in lower case. */
  function Scheme(u: string): string
    requires HasScheme(u)
  {
    Lower(u[..ScanScheme(u, 1)])
  }

  /** A request URL the Cache API accepts: absolute, with scheme http or
      https. */
  predicate IsHttpUrl(u: string) {
    HasScheme(u) && (Scheme(u) == "http" || Scheme(u) == "https")
  }

  /** `new Request(u).url` in a worker served from the root of `origin`
      (such as "https://example.org"): an absolute URL stays as it is, a path
      is appended to the origin, and any other relative reference is taken
      relative to the root directory. */
  function Resolve(origin: string, u: string): string {
    if HasScheme(u) then u
    else if |u| > 0 && u[0] == '/' then origin + u
    else origin + "/" + u
  }

  /** A URL beginning with a scheme name and ':' has exactly that scheme. */
  lemma SchemeOfPrefix(u: string, name: string)
    requires |name| > 0 && IsAlpha(name[0])
    requires forall j :: 0 <= j < |name| ==> IsSchemeChar(name[j])
    requires name + ":" <= u
    ensures HasScheme(u) && Scheme(u) == Lower(name)
  {
    var k := ScanScheme(u, 1);
    assert u[|name|] == ':';
    forall j | 1 <= j < |name|
      ensures IsSchemeChar(u[j])
    {
      assert u[j] == name[j];
    }
    assert u[..k] == name;
  }

  /** Appending text that starts with a non-scheme character does not move
      the end of a run of scheme characters. */
  lemma {:induction false} ScanSchemeAppend(a: string, b: string, i: nat)
    requires i <= |a|
    requires |b| > 0 && !IsSchemeChar(b[0])
    ensures ScanScheme(a + b, i) == ScanScheme(a, i)
    decreases |a| - i
  {
    if i < |a| && IsSchemeChar(a[i]) {
      assert (a + b)[i] == a[i];
      ScanSchemeAppend(a, b, i + 1);
    } else if i == |a| {
      assert (a + b)[i] == b[0];
    } else {
      assert (a + b)[i] == a[i];
    }
  }

  /** A path such as `/index.html` is relative and resolves to the origin
      followed by the path, which is an http(s) URL exactly when the origin
      is one. */
  lemma ResolvePath(origin: string, p: string)
    requires |p| > 0 && p[0] == '/'
    ensures !HasScheme(p)
    ensures Resolve(origin, p) == origin + p
    ensures IsHttpUrl(origin + p) <==> IsHttpUrl(origin)
  {
    var u := origin + p;
    if |origin| > 0 {
      ScanSchemeAppend(origin, p, 1);
      var k := ScanScheme(origin, 1);
      assert u[0] == origin[0];
      if k < |origin| {
        assert u[k] == origin[k];
        assert u[..k] == origin[..k];
      } else {
        assert u[k] == p[0];
      }
    } else {
      assert u == p;
    }
  }

  /** Two paths resolved against the same origin are equal only if the paths
      are. */
  lemma ResolveInjective(origin: string, p: string, q: string)
    requires origin + p == origin + q
    ensures p == q
  {
    assert p == (origin + p)[|origin|..];
    assert q == (origin + q)[|origin|..];
  }
}
